=== FILE: README.md ===
# Group 46 negotiation agent: opponent model and decision rules

A Dafny model of the negotiating agent in `agents/Group46_Negotiation`. The
agent bargains over bids: a bid assigns one value to every issue of a
domain. The model covers two parts.

- **Opponent model** (`OpponentModel.py`). The agent keeps the
  counterpart's bids in order, plus one counter per issue. For each issue
  it computes a time-discounted occurrence count of every value. The bid
  at position i contributes `f^i`, where `f = 0.98 + weight/50`. A value's
  utility is `((1 + count) / (1 + peak count)) ** 0.25`. A bid is rated
  by the linear-additive sum of issue weight times value utility.
- **Agent decision rules** (`agent_46.py`). The agent sorts every bid of
  the domain into twenty stages of its own utility. A clock-driven stage
  counter decides how far down the stages the agent is willing to go. A
  heuristic score blends two things: how closely a bid repeats the
  counterpart's last offer, and the bid's estimated utility to the
  counterpart. On its turn the agent either accepts the counterpart's
  standing offer or offers the best-scoring bid of stages 0..stage. It
  skips its own three most recent offers.

Modules:

- `Wrappers`: `Option` and `Result`.
- `Negotiation`: issues, values, bids, domains.
- `RealMath`: powers, geometric sums, ceiling, the convex blend, and the fourth root.
- `Frequencies`: discounted counts.
- `OpponentModel`: the estimator.
- `Stages`: bucketing bids into stages.
- `BidSearch`: scoring, first-best selection, and widening the stage pool.
- `Agent46`: agent state, acceptance, `find_bid`, `my_turn`, `opponent_action`.

Python floats are Dafny `real`s, so there is no rounding. `x ** 0.25` has
no counterpart among Dafny's reals. It is a function parameter `root`,
constrained by `RealMath.IsFourthRoot`: for x > 0, root(x) is the positive
real whose fourth power is x. Every property of `root` that the model
uses is proved from that constraint.

Inputs are parameters of the model:

- the session progress, a real;
- the agent's own utility function `util: Bid -> real`;
- the enumeration of all bids, a `seq<Bid>`;
- the estimated opponent utility `est: Bid -> real`;
- the concedence score, a real;
- the issue-weight estimate, a map.

Three facts about the code shape the model:

- Value utilities are smoothed by adding 1 to both the count and the peak
  count (OpponentModel.py:78).
- There is no issue-weight estimator: `update_issue_weights` returns 0
  (OpponentModel.py:57-58), so the weight estimate is whatever the model
  was constructed with.
- The concedence score is read from `concedencePoint` and `bidCount`
  (agent_46.py:253), which the opponent model class does not define.

## Model

| member | source | states |
|---|---|---|
| OpponentModel.Init | agents/Group46_Negotiation/OpponentModel.py:34-47 | a new model is over the given domain and has an empty history, a zero counter for every issue, no value-utility estimate yet, and keeps the given weight estimate |
| OpponentModel.UpdateBids | agents/Group46_Negotiation/OpponentModel.py:50-53 | the bid is appended after the earlier history, which is unchanged; every issue counter grows by exactly 1; domain, weights and utilities are untouched; validity is preserved |
| OpponentModel.Feed | agents/Group46_Negotiation/OpponentModel.py:50-53 | any run of `update_bids` calls keeps the model well formed and over the same domain |
| OpponentModel.FeedAppends | agents/Group46_Negotiation/OpponentModel.py:50-53 | after any sequence of `update_bids` calls, the history is the old history followed by those bids in order; every counter has grown by their number; weights are unchanged |
| OpponentModel.FeedFromInit | agents/Group46_Negotiation/OpponentModel.py:50-53 | after n calls on a new model, the history is exactly those n bids and every issue counter equals n |
| OpponentModel.UpdateIssueWeights | agents/Group46_Negotiation/OpponentModel.py:57-58 | the weight update returns 0 and leaves the model, weight estimate included, as it was |
| Frequencies.DiscountFactor | agents/Group46_Negotiation/OpponentModel.py:68 | the discount factor lies in [0.98, 1] for an issue weight in [0, 1], and is at least 0.98 for any non-negative weight |
| Frequencies.DiscountedCount | agents/Group46_Negotiation/OpponentModel.py:69-73 | with a positive factor, a value's discounted count over n bids lies between 0 and 1 + f + ... + f^(n-1) |
| Frequencies.DiscountedOccurrences | agents/Group46_Negotiation/OpponentModel.py:69-73 | the accumulation loop produces a dictionary whose keys are exactly the values proposed for the issue, each mapped to the sum of f^i over the history positions i proposing it |
| Frequencies.UnseenCountIsZero | agents/Group46_Negotiation/OpponentModel.py:72 | a value never proposed has discounted count 0, the default of the dictionary lookup |
| Frequencies.CountBounds | agents/Group46_Negotiation/OpponentModel.py:69-73 | with a positive factor every discounted count is non-negative, and strictly positive exactly for proposed values |
| Frequencies.SumCountsIsGeometric | agents/Group46_Negotiation/OpponentModel.py:69-73 | over a duplicate-free list containing every proposed value, the discounted counts add up to 1 + f + ... + f^(n-1) for a history of n bids |
| Frequencies.MaxCount | agents/Group46_Negotiation/OpponentModel.py:74 | the maximum over the proposed values is attained by one of them and bounds all of them |
| Frequencies.PeakCount | agents/Group46_Negotiation/OpponentModel.py:74 | `max(discountedOccurences.values())` on a non-empty history is the count of some proposed value, no proposed value's count exceeds it, and it is positive for a positive factor |
| Frequencies.CountsBelowPeak | agents/Group46_Negotiation/OpponentModel.py:74-78 | every value's count, proposed or not, lies between 0 and the peak count, and the peak is positive |
| OpponentModel.RatioInUnitInterval | agents/Group46_Negotiation/OpponentModel.py:78 | for 0 <= count <= peak the base (1 + count) / (1 + peak) lies in (0, 1], and equals 1 at the peak |
| OpponentModel.RatioMonotone | agents/Group46_Negotiation/OpponentModel.py:78 | the base ratio grows with the count |
| RealMath.RootMonotone | agents/Group46_Negotiation/OpponentModel.py:67 | the fourth root preserves the order of positive reals |
| RealMath.RootOfOne | agents/Group46_Negotiation/OpponentModel.py:67 | the fourth root of 1 is 1 |
| RealMath.RootOnUnitInterval | agents/Group46_Negotiation/OpponentModel.py:67 | the fourth root maps (0, 1] into (0, 1] and never lowers its argument there |
| OpponentModel.ValueUtility | agents/Group46_Negotiation/OpponentModel.py:78 | a value's utility lies in (0, 1], and its fourth power is (1 + count) / (1 + peak count) |
| OpponentModel.GetUtilities | agents/Group46_Negotiation/OpponentModel.py:65-79 | `get_utilities` with unseen values counted as 0: it fails exactly on an empty history (no maximum); otherwise every domain value of the issue gets a utility in (0, 1] whose fourth power is (1 + its discounted count) / (1 + the peak count) |
| OpponentModel.GetUtilitiesAsWritten | agents/Group46_Negotiation/OpponentModel.py:74-78 | as written, the lookup succeeds only when every domain value of the issue has been proposed |
| OpponentModel.AsWrittenFailsExactlyOnUnseen | agents/Group46_Negotiation/OpponentModel.py:76-78 | on a non-empty history the code as written fails exactly when some domain value was never proposed, and agrees with the corrected version otherwise |
| OpponentModel.UnseenValueCounterexample | agents/Group46_Negotiation/OpponentModel.py:76-78 | one issue with values {a, b} and one bid proposing a: as written it fails on b; the corrected version rates a at 1 and b at root(1/2) |
| OpponentModel.PeakValueRatedOne | agents/Group46_Negotiation/OpponentModel.py:74-78 | a value whose discounted count is the maximum gets utility exactly 1 |
| OpponentModel.UtilityMonotoneInCount | agents/Group46_Negotiation/OpponentModel.py:78 | d[v1] <= d[v2] implies util[v1] <= util[v2] |
| OpponentModel.AllUtilities | agents/Group46_Negotiation/OpponentModel.py:59-61 | the recomputed estimate has one entry per issue of the domain, keyed by exactly that issue's values, each utility in (0, 1] |
| OpponentModel.UpdateValueUtilities | agents/Group46_Negotiation/OpponentModel.py:59-61 | succeeds exactly when the history is non-empty or there are no issues; changes only the value-utility estimate; gives every issue a utility for each of its values, namely the result of `get_utilities` for that issue; keeps all utilities in (0, 1] |
| OpponentModel.WeightedSum | agents/Group46_Negotiation/OpponentModel.py:89-93 | with non-negative weights and utilities in (0, 1], the sum of weight times value utility lies between 0 and the sum of the weights, and is positive when that sum is |
| OpponentModel.EvaluateBidUtility | agents/Group46_Negotiation/OpponentModel.py:88-93 | the bid rating lies in [0, total weight], and in (0, 1] when the weights sum to 1 |
| OpponentModel.WeightedSumMonotone | agents/Group46_Negotiation/OpponentModel.py:88-93 | a bid whose value utilities are issue by issue no lower than another's gets a weighted sum no lower |
| OpponentModel.EvaluateMonotone | agents/Group46_Negotiation/OpponentModel.py:88-93 | the same monotonicity, stated for the bid rating over the domain's issues |
| Stages.StageOf | agents/Group46_Negotiation/agent_46.py:236-239 | the stage index lies in 0..19; for stages below 19 the utility lies in ((19 - s)/20, (20 - s)/20]; stage 19 holds exactly the utilities up to 0.05; utility 1 maps to stage 0 and utility 0 to stage 19 |
| Stages.StageMonotone | agents/Group46_Negotiation/agent_46.py:237-239 | a higher own utility never lands in a later stage |
| Stages.InStageMembers | agents/Group46_Negotiation/agent_46.py:235-240 | a bid is in the filtered stage exactly when it is enumerated and its utility maps to that stage |
| Stages.Buckets | agents/Group46_Negotiation/agent_46.py:228-240 | bucketing any enumeration yields twenty stages |
| Stages.BucketsAreStages | agents/Group46_Negotiation/agent_46.py:235-240 | stage i of the buckets is the enumeration filtered to stage i, in enumeration order |
| Stages.BucketsKeepBids | agents/Group46_Negotiation/agent_46.py:228-240 | the concatenated stages are a permutation of the enumeration |
| Stages.BucketBids | agents/Group46_Negotiation/agent_46.py:228-240 | the bucketing loop produces twenty stages, stage i holding the bids of stage i in order; together they are a permutation of the enumeration, so the stage sizes add up to the bid count |
| Stages.BucketsPartition | agents/Group46_Negotiation/agent_46.py:235-240 | every enumerated bid is in stage i exactly when its utility maps to i, so each lands in exactly one stage |
| Stages.PoolOfLastStage | agents/Group46_Negotiation/agent_46.py:265-267 | the pool of stages 0..19 is every bucketed bid |
| Stages.PoolGrows | agents/Group46_Negotiation/agent_46.py:265-267 | the pool of stages 0..s+1 is the pool of 0..s followed by stage s+1 |
| Stages.PoolWithinBuckets | agents/Group46_Negotiation/agent_46.py:265-267 | every bid of a pool is a bucketed bid |
| BidSearch.MatchFraction | agents/Group46_Negotiation/agent_46.py:315 | the share of matching issues lies in [0, 1] |
| BidSearch.MatchCount | agents/Group46_Negotiation/agent_46.py:310-313 | the number of issues on which the bid repeats the last offer is at most the number of issues |
| BidSearch.MatchCountOfCopy | agents/Group46_Negotiation/agent_46.py:310-313 | a bid matches itself on every issue it sets |
| BidSearch.MatchCountOfMismatch | agents/Group46_Negotiation/agent_46.py:310-313 | a bid that differs from the last offer on every issue they both set matches nothing |
| BidSearch.MatchFractionExtremes | agents/Group46_Negotiation/agent_46.py:309-315 | repeating the last offer scores match fraction 1; a bid that differs from the last offer on every issue it sets scores 0 |
| RealMath.Blend | agents/Group46_Negotiation/agent_46.py:317 | the convex blend equals its first end at p = 0 and its second end at p = 1, and lies between them for p in [0, 1] |
| BidSearch.ScoreBid | agents/Group46_Negotiation/agent_46.py:297-318 | the score equals the match fraction at progress 0 and the estimated opponent utility at progress 1; in between it lies between the two; it is in [0, 1] when progress and estimate are |
| BidSearch.Recent | agents/Group46_Negotiation/agent_46.py:288 | `bid_history[-3:]` holds min(3, n) bids, and a bid is in it exactly when it is one of the last three own offers |
| BidSearch.SelectBest | agents/Group46_Negotiation/agent_46.py:272-289 | the scan picks nothing exactly when no bid scores above 0 outside the recent offers; otherwise the pick qualifies, no qualifying bid scores higher, and every qualifying bid before it scores strictly lower, so the first maximum wins |
| BidSearch.SearchStages | agents/Group46_Negotiation/agent_46.py:265-295 | the stage loop, with the pool widened as its comment intends: it stops at a stage no lower than the start and below 20; the bid is the first-best pick of stages 0..final; when the stage was raised, the pool one stage narrower held no qualifying bid; the bid qualifies and no qualifying bid of the final pool scores above it |
| BidSearch.AsWrittenSearch | agents/Group46_Negotiation/agent_46.py:265-295 | the loop as written, over a pool fixed before the loop: any bid it returns comes from that pool and qualifies; each pass raises the stage by at most 1 |
| BidSearch.AsWrittenSearchSpins | agents/Group46_Negotiation/agent_46.py:269-293 | when the fixed pool has no qualifying bid, every number of passes ends with no bid and the stage raised by that number: the loop never ends |
| BidSearch.SearchCounterexample | agents/Group46_Negotiation/agent_46.py:265-293 | stage 0 holds only the bid just offered and stage 1 holds another bid: as written the loop never finds a bid, while the widened pool of stage 1 yields the other bid |
| Agent46.AcceptCondition | agents/Group46_Negotiation/agent_46.py:203-222 | no bid is never accepted; with no own offer the bid is compared with itself and never accepted; otherwise accept exactly when progress > 0.8 and the bid is worth strictly more to the agent than its last offer |
| Agent46.AdvanceStage | agents/Group46_Negotiation/agent_46.py:251-260 | the stage rises by at most one, and rises exactly when more than 30 own offers exist and progress·(1 + 10c) > (stage + 1)·0.15 |
| Agent46.AdvanceStageSchedule | agents/Group46_Negotiation/agent_46.py:251-260 | a non-negative concedence advances the stage at least on the plain time schedule; a concedence of -0.1 or below never advances it |
| Agent46.FindBid | agents/Group46_Negotiation/agent_46.py:224-295 | buckets the bids on first use and reuses them after; the stage never falls below the clock-advanced stage and stays below 20; the offer is an enumerated bid scoring above 0 outside the last three own offers, and the first-best of stages 0..stage; a further stage is conceded only when the narrower pool had no candidate |
| Agent46.MyTurn | agents/Group46_Negotiation/agent_46.py:173-188 | accepts exactly when the accept condition holds at the clock reading of `accept_condition`, and then the state is unchanged; otherwise it offers an enumerated bid outside the last three own offers, scoring above 0 at the later clock reading of `find_bid`, and appends it to the own history; the stage never decreases; the buckets stay correct |
| Agent46.OpponentAction | agents/Group46_Negotiation/agent_46.py:149-171 | an accept from the counterpart changes nothing; an offer creates the opponent model if needed, is appended to its history, and becomes the last received bid; own history, stage and stages are untouched |
| Agent46.ReceiveOffers | agents/Group46_Negotiation/agent_46.py:149-171 | after a run of counterpart offers the newest is the last received bid, and own history, stage and stages are untouched |
| Agent46.ReceiveOffersRecordsAll | agents/Group46_Negotiation/agent_46.py:149-171 | after a run of counterpart offers the opponent model's history is the earlier history followed by exactly those offers |

## Left out

- `run.py`, `FrequencyModelAnalysis.py`: session running, JSON and CSV file handling, statistics and plotting. This is I/O and foreign libraries.
- geniusweb protocol plumbing is not modelled: `notifyChange`, `send_action`, `save_data`, the profile connection, `getCapabilities`, `getDescription`. The agent's own utility, the bid enumeration and the session progress are parameters.
- Floating point is not modelled. Reals are exact, so rounding in the discount product, the ceiling of `20u` and the score is absent.
- The `Dict[...]` aliases (OpponentModel.py:38-42, 66, 76) are used as if they were dictionaries, and `self` is passed twice at OpponentModel.py:61. As written, this code fails before computing anything. The model follows the evident intent: real maps, and one call of `get_utilities` per issue.
- The agent constructs the opponent model with three arguments and calls `update_bids` with four (agent_46.py:159, 169). The class accepts one argument in each case. The model uses the class's own one-argument `update_bids`.
- OpponentAction: the previous-bid utility (0 when there is no earlier bid, agent_46.py:164-166) is not modelled, because OpponentModel.py's `update_bids` (line 50) takes only the bid.
- AdvanceStage: the concedence score `concedencePoint / bidCount` (agent_46.py:253) reads fields that the `OpponentModel` class (OpponentModel.py:34-93) does not define. It is an input real.
- MyTurn: the estimated opponent utility is an input `est`, standing for `evaluate_bid_utility` of the opponent model. agent_46.py never calls `update_value_utilities`, so that model's value-utility estimate is never filled in. The model does not tie `est` to an estimator state.
- FindBid: requires that the clock-advanced stage stays below 20 and that some enumerated bid qualifies. As written, the clock check (agent_46.py:260) can raise the stage to 20, and the pool collection at line 267 then indexes `bid_stages[20]` out of range. With no qualifying bid anywhere, the search never ends (see Findings).
- EvaluateBidUtility: requires `CanEvaluate`: the bid sets every issue of the domain, and every issue has a weight and a value utility for the bid's value. As written, a missing entry raises `KeyError` at OpponentModel.py:92; that error path is not modelled.
- MyTurn: requires a received offer when it does not accept. As written, `score_bid` reads `last_received_bid` and raises when the agent moves first.
- ScoreBid: the issues are passed in; they stand for the bid's own issues. At least one issue is required, because the match fraction divides by their number. Enumerated bids set every issue of the domain.
- GetUtilities: requires that every recorded bid sets the issue (`Covers`). The source's `getValue` on a partial bid is not modelled.
- UpdateIssueWeights: the weight estimate is never learned; the source's update is a stub.
- `opponentStrategyFuzzySet`, `confidence` and `currentBid` (OpponentModel.py:44-47) are set and never read. They are not modelled.

## Findings

| source | as written | input that shows it | evidently intended | confidence | as-written member | corrected member |
|---|---|---|---|---|---|---|
| agents/Group46_Negotiation/OpponentModel.py:76-78 | `discountedOccurences[value]` is read for every domain value. Only proposed values are keys (line 72 creates them with `.get(value, 0)`). | one issue with values {a, b} and a history of one bid proposing a: the lookup of b raises | an unproposed value counts 0 and gets utility (1/(1 + max))^0.25 | not executed | OpponentModel.GetUtilitiesAsWritten, OpponentModel.UnseenValueCounterexample | OpponentModel.GetUtilities |
| agents/Group46_Negotiation/agent_46.py:265-293 | the pool `bids_to_consider` is collected once, before the `while` loop, so `self.stage += 1` never widens it | stage 0 holds only the bid just offered, stage 1 holds another bid; the loop rescans the same one-bid pool forever | raising the stage adds the next stage's bids to the pool and the search repeats | not executed | BidSearch.AsWrittenSearch, BidSearch.AsWrittenSearchSpins, BidSearch.SearchCounterexample | BidSearch.SearchStages |

=== FILE: agent46.dfy ===
/**
 The negotiating agent of agents/Group46_Negotiation/agent_46.py: its own
 offer history, the counterpart's last offer, the current concession stage,
 the bucketed bid space, and the opponent model it feeds. Its turn either
 accepts the counterpart's standing offer or offers the best-scoring bid of
 the stages it has conceded to so far.
 */
module Agent46 {
  import opened Wrappers
  import opened Negotiation
  import opened OpponentModel
  import opened Stages
  import opened BidSearch

  datatype Action = Offer(bid: Bid) | Accept(bid: Bid)

  datatype Agent = Agent(
    stage: nat,                       // how many stages below the top the agent has conceded
    history: seq<Bid>,                // the agent's own offers, oldest first
    lastReceived: Option<Bid>,        // the counterpart's newest offer
    stages: Option<seq<seq<Bid>>>,    // the bucketed bid space, once built
    model: Option<Estimator>)         // the opponent model, once the first offer arrived

  /** Own offers required before the stage follows the clock. */
  const WarmUp: nat := 30

  /** Progress share per stage. */
  const StageStep: real := 0.15

  /**
   `accept_condition`: accept the counterpart's offer late in the session
   (progress above 0.8) when it is worth strictly more to the agent than the
   agent's own last offer. Before the agent has offered anything the offer is
   compared with itself, so it is never accepted.
   */
  function AcceptCondition(bid: Option<Bid>, history: seq<Bid>, progress: real, util: Bid -> real): (accept: bool)
    ensures bid.None? ==> !accept
    ensures |history| == 0 ==> !accept
    ensures accept <==> bid.Some? && 0 < |history| && 0.8 < progress && util(history[|history| - 1]) < util(bid.value)
  {
    match bid
    case None => false
    case Some(b) =>
      var lastBid := if 0 < |history| then history[|history| - 1] else b;
      0.8 < progress && util(lastBid) < util(b)
  }

  /**
   The clock check of `find_bid`: past the warm-up, move one stage down when
   progress scaled by (1 + 10 · concedence) passes the next stage boundary.
   */
  function AdvanceStage(stage: nat, historyLength: nat, progress: real, concedence: real): (next: nat)
    ensures next == stage || next == stage + 1
    ensures next == stage + 1 <==>
      WarmUp < historyLength && (stage + 1) as real * StageStep < progress * (1.0 + concedence * 10.0)
  {
    if WarmUp < historyLength && (stage + 1) as real * StageStep < progress * (1.0 + concedence * 10.0)
    then stage + 1 else stage
  }

  /**
   A counterpart that does not trade away its modelled utility against the
   agent (concedence at least 0) cannot slow the agent below the plain time
   schedule; one at -0.1 or below freezes the clock-driven concession.
   */
  lemma AdvanceStageSchedule(stage: nat, historyLength: nat, progress: real, concedence: real)
    requires 0.0 <= progress
    ensures WarmUp < historyLength && 0.0 <= concedence && (stage + 1) as real * StageStep < progress
      ==> AdvanceStage(stage, historyLength, progress, concedence) == stage + 1
    ensures concedence <= -0.1 ==> AdvanceStage(stage, historyLength, progress, concedence) == stage
  {
    var scale := 1.0 + concedence * 10.0;
    if 0.0 <= concedence {
      RealMath.MultiplyWeak(1.0, scale, progress);
    }
    if concedence <= -0.1 {
      RealMath.MultiplyWeak(scale, 0.0, progress);
    }
  }

  /** The twenty stages built from `allBids`, as `find_bid` builds them. */
  predicate Bucketed(stages: seq<seq<Bid>>, allBids: seq<Bid>, util: Bid -> real)
    requires InUnitRange(allBids, util)
  {
    && |stages| == StageCount
    && (forall i :: 0 <= i < StageCount ==> stages[i] == InStage(allBids, util, i))
    && multiset(Concat(stages)) == multiset(allBids)
  }

  /**
   `find_bid`, with the stage escalation widening the pool as its comment
   intends: bucket the bid space on first use, apply the clock check, then
   offer the first best-scoring bid of stages 0..stage that scores above 0
   and is not among the last three own offers, conceding one more stage
   while there is none.
   */
  method FindBid(a: Agent, allBids: seq<Bid>, util: Bid -> real, score: Bid -> real, progress: real, concedence: real)
    returns (bid: Bid, next: Agent)
    requires InUnitRange(allBids, util)
    requires a.stages.Some? ==> Bucketed(a.stages.value, allBids, util)
    requires AdvanceStage(a.stage, |a.history|, progress, concedence) < StageCount
    requires SomeEligible(allBids, Recent(a.history), score)
    ensures next == a.(stage := next.stage, stages := next.stages)
    ensures next.stages.Some? && Bucketed(next.stages.value, allBids, util)
    ensures a.stages.Some? ==> next.stages == a.stages
    ensures AdvanceStage(a.stage, |a.history|, progress, concedence) <= next.stage < StageCount
    ensures bid in allBids && Eligible(bid, Recent(a.history), score)
    ensures var pick := SelectBest(Pool(next.stages.value, next.stage), Recent(a.history), score);
      pick.Picked? && bid == Pool(next.stages.value, next.stage)[pick.index]
    ensures AdvanceStage(a.stage, |a.history|, progress, concedence) < next.stage
      ==> !SomeEligible(Pool(next.stages.value, next.stage - 1), Recent(a.history), score)
  {
    var stages: seq<seq<Bid>>;
    if a.stages.Some? {
      stages := a.stages.value;
    } else {
      stages := BucketBids(allBids, util);
    }
    var recent := Recent(a.history);
    var k :| 0 <= k < |allBids| && Eligible(allBids[k], recent, score);
    assert allBids[k] in multiset(Concat(stages));
    var j :| 0 <= j < |Concat(stages)| && Concat(stages)[j] == allBids[k];
    var stage := AdvanceStage(a.stage, |a.history|, progress, concedence);
    var final;
    bid, final := SearchStages(stages, stage, recent, score);
    PoolWithinBuckets(stages, final, bid);
    assert bid in multiset(allBids);
    next := a.(stage := final, stages := Some(stages));
  }

  /** What the counterpart's last offer must allow for the agent to find a counter-offer. */
  predicate CanOffer(a: Agent, issues: seq<Issue>, allBids: seq<Bid>, est: Bid -> real, progress: real, concedence: real)
  {
    && a.lastReceived.Some?
    && 0 < |issues|
    && AdvanceStage(a.stage, |a.history|, progress, concedence) < StageCount
    && exists k :: 0 <= k < |allBids|
         && 0.0 < ScoreBid(issues, allBids[k], a.lastReceived.value, progress, est(allBids[k]))
         && allBids[k] !in Recent(a.history)
  }

  /**
   `my_turn`: accept the counterpart's last offer when the accept condition
   holds, otherwise offer the bid `find_bid` chooses and remember it. Only an
   offer grows the own history, and the stage never goes back. The clock is
   read twice: once by `accept_condition` (`acceptProgress`) and, when the
   offer is refused, again by `find_bid` (`offerProgress`), which also hands
   its reading to `score_bid`. Time does not run backwards between the two.
   */
  method MyTurn(a: Agent, issues: seq<Issue>, allBids: seq<Bid>, util: Bid -> real, est: Bid -> real,
                acceptProgress: real, offerProgress: real, concedence: real)
    returns (next: Agent, action: Action)
    requires acceptProgress <= offerProgress
    requires InUnitRange(allBids, util)
    requires a.stages.Some? ==> Bucketed(a.stages.value, allBids, util)
    requires !AcceptCondition(a.lastReceived, a.history, acceptProgress, util)
      ==> CanOffer(a, issues, allBids, est, offerProgress, concedence)
    ensures action.Accept? <==> AcceptCondition(a.lastReceived, a.history, acceptProgress, util)
    ensures action.Accept? ==> next == a && a.lastReceived == Some(action.bid)
    ensures action.Offer? ==> next.history == a.history + [action.bid]
    ensures action.Offer? ==> next.lastReceived == a.lastReceived && next.model == a.model
    ensures action.Offer? ==> action.bid in allBids && action.bid !in Recent(a.history)
    ensures action.Offer? ==>
      0.0 < ScoreBid(issues, action.bid, a.lastReceived.value, offerProgress, est(action.bid))
    ensures a.stage <= next.stage
    ensures next.stages.Some? ==> Bucketed(next.stages.value, allBids, util)
  {
    if AcceptCondition(a.lastReceived, a.history, acceptProgress, util) {
      next, action := a, Accept(a.lastReceived.value);
    } else {
      var last := a.lastReceived.value;
      var score := (b: Bid) => ScoreBid(issues, b, last, offerProgress, est(b));
      var k :| 0 <= k < |allBids|
        && 0.0 < ScoreBid(issues, allBids[k], last, offerProgress, est(allBids[k]))
        && allBids[k] !in Recent(a.history);
      assert Eligible(allBids[k], Recent(a.history), score);
      var bid, found := FindBid(a, allBids, util, score, offerProgress, concedence);
      next, action := found.(history := a.history + [bid]), Offer(bid);
    }
  }

  /** The agent's opponent model before it sees its next offer. */
  function ModelBids(a: Agent): seq<Bid>
  {
    if a.model.Some? then a.model.value.bids else []
  }

  /** The opponent model is well formed, or absent and constructible for `domain` with `weights`. */
  predicate ModelReady(a: Agent, domain: Domain, weights: map<Issue, real>) {
    match a.model
    case Some(m) => m.Valid()
    case None =>
      && domain.Valid()
      && (forall k :: 0 <= k < |domain.issues| ==> domain.issues[k] in weights)
      && NonNegative(weights)
  }

  /**
   `opponent_action`: an offer creates the opponent model on first use, is
   recorded in it, and becomes the last received bid; any other action is
   ignored.
   */
  function OpponentAction(a: Agent, action: Action, domain: Domain, weights: map<Issue, real>): (r: Agent)
    requires ModelReady(a, domain, weights)
    ensures ModelReady(r, domain, weights)
    ensures r.stage == a.stage && r.history == a.history && r.stages == a.stages
    ensures action.Accept? ==> r == a
    ensures action.Offer? ==> r.lastReceived == Some(action.bid)
    ensures action.Offer? ==> r.model.Some? && ModelBids(r) == ModelBids(a) + [action.bid]
  {
    match action
    case Accept(_) => a
    case Offer(bid) =>
      var m := if a.model.Some? then a.model.value else Init(domain, weights);
      a.(model := Some(UpdateBids(m, bid)), lastReceived := Some(bid))
  }

  /**
   The agent after the counterpart's offers `offers`, in order: the newest is
   the last received bid, and the agent's own offers, stage and stages are
   untouched.
   */
  function ReceiveOffers(a: Agent, offers: seq<Bid>, domain: Domain, weights: map<Issue, real>): (r: Agent)
    requires ModelReady(a, domain, weights)
    ensures ModelReady(r, domain, weights)
    ensures 0 < |offers| ==> r.lastReceived == Some(offers[|offers| - 1])
    ensures r.history == a.history && r.stage == a.stage && r.stages == a.stages
    decreases |offers|
  {
    if |offers| == 0 then a
    else
      var n := |offers| - 1;
      OpponentAction(ReceiveOffers(a, offers[..n], domain, weights), Offer(offers[n]), domain, weights)
  }

  /** After any run of counterpart offers the opponent model holds exactly those offers, in order. */
  lemma {:induction false} ReceiveOffersRecordsAll(a: Agent, offers: seq<Bid>, domain: Domain, weights: map<Issue, real>)
    requires ModelReady(a, domain, weights)
    ensures ModelBids(ReceiveOffers(a, offers, domain, weights)) == ModelBids(a) + offers
    decreases |offers|
  {
    if 0 < |offers| {
      var n := |offers| - 1;
      ReceiveOffersRecordsAll(a, offers[..n], domain, weights);
      AppendLast(ModelBids(a), offers);
    }
  }
}

=== FILE: bid_search.dfy ===
/**
 How the agent picks its next offer: the heuristic score of a bid, the
 first-best scan over a pool of candidates, and the widening of the pool
 stage by stage until some candidate qualifies.
 */
module BidSearch {
  import opened Wrappers
  import opened Negotiation
  import opened Stages
  import opened RealMath

  /** The number of issues on which `bid` repeats the value of `last`. */
  function MatchCount(issues: seq<Issue>, bid: Bid, last: Bid): (n: nat)
    ensures n <= |issues|
  {
    if |issues| == 0 then 0
    else
      var i := issues[0];
      (if i in bid && i in last && bid[i] == last[i] then 1 else 0) + MatchCount(issues[1..], bid, last)
  }

  /** Share of the issues on which `bid` repeats the counterpart's last offer. */
  function MatchFraction(issues: seq<Issue>, bid: Bid, last: Bid): (r: real)
    requires 0 < |issues|
    ensures 0.0 <= r <= 1.0
  {
    var n, d := MatchCount(issues, bid, last) as real, |issues| as real;
    QuotientInUnitInterval(n, d);
    n / d
  }

  lemma {:induction false} MatchCountOfCopy(issues: seq<Issue>, bid: Bid)
    requires forall k :: 0 <= k < |issues| ==> issues[k] in bid
    ensures MatchCount(issues, bid, bid) == |issues|
  {
    if 0 < |issues| {
      MatchCountOfCopy(issues[1..], bid);
    }
  }

  /** A bid that differs from the last offer on every issue both set, or that one of them leaves unset, matches nothing. */
  lemma {:induction false} MatchCountOfMismatch(issues: seq<Issue>, bid: Bid, last: Bid)
    requires forall k :: 0 <= k < |issues| ==> issues[k] in bid && issues[k] in last ==> bid[issues[k]] != last[issues[k]]
    ensures MatchCount(issues, bid, last) == 0
  {
    if 0 < |issues| {
      MatchCountOfMismatch(issues[1..], bid, last);
    }
  }

  /**
   Repeating the counterpart's last offer on every issue matches fully; a
   bid that differs from it on every issue matches nothing.
   */
  lemma MatchFractionExtremes(issues: seq<Issue>, bid: Bid, last: Bid)
    requires 0 < |issues|
    requires forall k :: 0 <= k < |issues| ==> issues[k] in bid
    ensures MatchFraction(issues, bid, bid) == 1.0
    ensures (forall k :: 0 <= k < |issues| ==> issues[k] in last ==> bid[issues[k]] != last[issues[k]])
      ==> MatchFraction(issues, bid, last) == 0.0
  {
    var d := |issues| as real;
    MatchCountOfCopy(issues, bid);
    assert MatchFraction(issues, bid, bid) == d / d;
    assert d / d == 1.0;
    if forall k :: 0 <= k < |issues| ==> issues[k] in last ==> bid[issues[k]] != last[issues[k]] {
      MatchCountOfMismatch(issues, bid, last);
      assert MatchFraction(issues, bid, last) == 0.0 / d;
      assert 0.0 / d == 0.0;
    }
  }

  /**
   `score_bid`: (1 - progress) · match + progress · est, moving from
   mirroring the counterpart's last offer early on to the estimated
   opponent utility near the deadline.
   */
  function ScoreBid(issues: seq<Issue>, bid: Bid, last: Bid, progress: real, est: real): (r: real)
    requires 0 < |issues|
    ensures progress == 0.0 ==> r == MatchFraction(issues, bid, last)
    ensures progress == 1.0 ==> r == est
    ensures 0.0 <= progress <= 1.0 ==>
      (MatchFraction(issues, bid, last) <= r <= est || est <= r <= MatchFraction(issues, bid, last))
    ensures 0.0 <= progress <= 1.0 && 0.0 <= est <= 1.0 ==> 0.0 <= r <= 1.0
  {
    Blend(progress, MatchFraction(issues, bid, last), est)
  }

  /** Python's `bid_history[-3:]`: the last three own offers, or all of them when fewer. */
  function Recent(history: seq<Bid>): (r: seq<Bid>)
    ensures |r| == if |history| < 3 then |history| else 3
    ensures forall b :: b in r <==> exists k :: |history| - 3 <= k < |history| && 0 <= k && history[k] == b
  {
    if |history| < 3 then history else history[|history| - 3..]
  }

  /** A bid may be offered when it scores above 0 and is not among the recent own offers. */
  predicate Eligible(b: Bid, recent: seq<Bid>, score: Bid -> real) {
    0.0 < score(b) && b !in recent
  }

  predicate SomeEligible(pool: seq<Bid>, recent: seq<Bid>, score: Bid -> real) {
    exists k :: 0 <= k < |pool| && Eligible(pool[k], recent, score)
  }

  datatype Pick = NoPick | Picked(index: nat, score: real)

  /**
   The scan of the selection loop: keep a candidate only when it scores
   strictly above the best so far (which starts at 0) and was not recently
   offered. The first bid with the maximal score wins.
   */
  function SelectBest(pool: seq<Bid>, recent: seq<Bid>, score: Bid -> real): (p: Pick)
    ensures p.NoPick? <==> !SomeEligible(pool, recent, score)
    ensures p.Picked? ==> p.index < |pool| && Eligible(pool[p.index], recent, score)
    ensures p.Picked? ==> p.score == score(pool[p.index])
    ensures p.Picked? ==> forall k :: 0 <= k < |pool| && Eligible(pool[k], recent, score) ==> score(pool[k]) <= p.score
    ensures p.Picked? ==> forall k :: 0 <= k < p.index && Eligible(pool[k], recent, score) ==> score(pool[k]) < p.score
    decreases |pool|
  {
    if |pool| == 0 then NoPick
    else
      var n := |pool| - 1;
      var before := SelectBest(pool[..n], recent, score);
      var bar := if before.Picked? then before.score else 0.0;
      if score(pool[n]) > bar && pool[n] !in recent then Picked(n, score(pool[n])) else before
  }

  /**
   The corrected stage escalation: search the pool of stages 0..stage and,
   while nothing qualifies, widen it by the next stage and search again.
   */
  method SearchStages(stages: seq<seq<Bid>>, stage: nat, recent: seq<Bid>, score: Bid -> real)
    returns (bid: Bid, final: nat)
    requires |stages| == StageCount
    requires stage < StageCount
    requires SomeEligible(Concat(stages), recent, score)
    ensures stage <= final < StageCount
    ensures SelectBest(Pool(stages, final), recent, score).Picked?
    ensures bid == Pool(stages, final)[SelectBest(Pool(stages, final), recent, score).index]
    ensures stage < final ==> !SomeEligible(Pool(stages, final - 1), recent, score)
    ensures Eligible(bid, recent, score)
    ensures forall k :: 0 <= k < |Pool(stages, final)| && Eligible(Pool(stages, final)[k], recent, score) ==>
              score(Pool(stages, final)[k]) <= score(bid)
  {
    PoolOfLastStage(stages);
    final := stage;
    var pick := SelectBest(Pool(stages, final), recent, score);
    while pick.NoPick?
      invariant stage <= final < StageCount
      invariant pick == SelectBest(Pool(stages, final), recent, score)
      invariant stage < final ==> !SomeEligible(Pool(stages, final - 1), recent, score)
      decreases StageCount - final
    {
      final := final + 1;
      pick := SelectBest(Pool(stages, final), recent, score);
    }
    bid := Pool(stages, final)[pick.index];
  }

  /**
   The selection loop of `find_bid` as written: the pool is collected once,
   before the loop, so raising the stage never widens it. This is the state
   after `passes` rounds of that loop.
   */
  function AsWrittenSearch(pool: seq<Bid>, stage: nat, recent: seq<Bid>, score: Bid -> real, passes: nat): (r: (Option<Bid>, nat))
    ensures r.0.Some? ==> r.0.value in pool && Eligible(r.0.value, recent, score)
    ensures stage <= r.1 <= stage + passes
    decreases passes
  {
    if passes == 0 then (None, stage)
    else
      match SelectBest(pool, recent, score)
      case Picked(i, _) => (Some(pool[i]), stage)
      case NoPick => AsWrittenSearch(pool, stage + 1, recent, score, passes - 1)
  }

  /** When the fixed pool holds no qualifying bid, the loop as written never ends and the stage grows without bound. */
  lemma {:induction false} AsWrittenSearchSpins(pool: seq<Bid>, stage: nat, recent: seq<Bid>, score: Bid -> real, passes: nat)
    requires !SomeEligible(pool, recent, score)
    ensures AsWrittenSearch(pool, stage, recent, score, passes) == (None, stage + passes)
    decreases passes
  {
    if passes > 0 {
      AsWrittenSearchSpins(pool, stage + 1, recent, score, passes - 1);
    }
  }

  /**
   Stage 0 holds only bid x, which was just offered; stage 1 holds y. The
   loop as written keeps scanning [x] forever, while the widened pool of
   stage 1 yields y.
   */
  lemma SearchCounterexample(passes: nat)
    ensures var x, y := map["issue" := "x"], map["issue" := "y"];
      var stages := [[x], [y]] + seq(18, _ => []);
      var score := (_: Bid) => 0.5;
      && AsWrittenSearch(Pool(stages, 0), 0, [x], score, passes) == (None, passes)
      && SelectBest(Pool(stages, 1), [x], score) == Picked(1, 0.5)
      && Pool(stages, 1)[1] == y
  {
    var x, y := map["issue" := "x"], map["issue" := "y"];
    var stages := [[x], [y]] + seq(18, _ => []);
    var score := (_: Bid) => 0.5;
    assert stages[..1] == [[x]];
    assert Pool(stages, 0) == [x] by {
      assert Concat([[x]]) == [x] + Concat([]);
    }
    assert !SomeEligible(Pool(stages, 0), [x], score);
    AsWrittenSearchSpins(Pool(stages, 0), 0, [x], score, passes);
    assert stages[..2] == [[x], [y]];
    assert Pool(stages, 1) == [x, y] by {
      assert Concat([[x], [y]]) == [x] + Concat([[y]]);
      assert Concat([[y]]) == [y] + Concat([]);
    }
    assert x != y by {
      assert x["issue"] != y["issue"];
    }
  }
}

=== FILE: frequencies.dfy ===
/**
 Time-discounted occurrence counts of an issue's values over the
 counterpart's bid history: the bid at position i contributes factor^i to the
 count of the value it assigns to the issue.
 */
module Frequencies {
  import opened Negotiation
  import opened RealMath

  /**
   The per-issue discount factor 0.98 + weight/50. The oldest bid weighs 1
   and the bid at position i weighs factor^i, so a weight nearer 1 discounts
   the later bids less.
   */
  function DiscountFactor(weight: real): (f: real)
    ensures 0.0 <= weight <= 1.0 ==> 0.98 <= f <= 1.0
    ensures 0.0 <= weight ==> 0.98 <= f
  {
    0.98 + weight / 50.0
  }

  /**
   Σ f^i over the positions i of `bids` whose bid assigns `v` to `issue`.
   With a positive factor it lies between 0 and 1 + f + ... + f^(n-1), the
   count of a value proposed in every bid.
   */
  function DiscountedCount(bids: seq<Bid>, issue: Issue, v: Value, f: real): (c: real)
    requires Covers(bids, issue)
    ensures 0.0 < f ==> 0.0 <= c <= GeometricSum(f, |bids|)
    decreases |bids|
  {
    if |bids| == 0 then 0.0
    else
      var n := |bids| - 1;
      DiscountedCount(bids[..n], issue, v, f) + (if bids[n][issue] == v then Pow(f, n) else 0.0)
  }

  lemma {:induction false} UnseenCountIsZero(bids: seq<Bid>, issue: Issue, v: Value, f: real)
    requires Covers(bids, issue)
    requires !Seen(bids, issue, v)
    ensures DiscountedCount(bids, issue, v, f) == 0.0
    decreases |bids|
  {
    if |bids| > 0 {
      var n := |bids| - 1;
      assert !Seen(bids[..n], issue, v);
      UnseenCountIsZero(bids[..n], issue, v, f);
    }
  }

  lemma {:induction false} CountBounds(bids: seq<Bid>, issue: Issue, v: Value, f: real)
    requires Covers(bids, issue)
    requires 0.0 < f
    ensures 0.0 <= DiscountedCount(bids, issue, v, f)
    ensures Seen(bids, issue, v) <==> 0.0 < DiscountedCount(bids, issue, v, f)
    decreases |bids|
  {
    if !Seen(bids, issue, v) {
      UnseenCountIsZero(bids, issue, v, f);
    }
    if |bids| > 0 {
      var n := |bids| - 1;
      CountBounds(bids[..n], issue, v, f);
      if Seen(bids, issue, v) && bids[n][issue] != v {
        var k :| 0 <= k < |bids| && bids[k][issue] == v;
        assert bids[..n][k][issue] == v;
      }
    }
  }

  /** The largest discounted count among the values of the first n bids. */
  function MaxCount(bids: seq<Bid>, issue: Issue, f: real, n: nat): (m: real)
    requires Covers(bids, issue)
    requires 1 <= n <= |bids|
    ensures exists k :: 0 <= k < n && m == DiscountedCount(bids, issue, bids[k][issue], f)
    ensures forall k :: 0 <= k < n ==> DiscountedCount(bids, issue, bids[k][issue], f) <= m
  {
    var here := DiscountedCount(bids, issue, bids[n - 1][issue], f);
    if n == 1 then here
    else
      var before := MaxCount(bids, issue, f, n - 1);
      if before < here then here else before
  }

  /**
   Python's `max(discountedOccurences.values())`: the peak count over the
   values proposed so far, reached by one of them and positive for a positive
   factor.
   */
  function PeakCount(bids: seq<Bid>, issue: Issue, f: real): (p: real)
    requires Covers(bids, issue)
    requires 0 < |bids|
    ensures exists k :: 0 <= k < |bids| && p == DiscountedCount(bids, issue, bids[k][issue], f)
    ensures forall k :: 0 <= k < |bids| ==> DiscountedCount(bids, issue, bids[k][issue], f) <= p
    ensures 0.0 < f ==> 0.0 < p
  {
    var p := MaxCount(bids, issue, f, |bids|);
    assert 0.0 < f ==> 0.0 < p by {
      if 0.0 < f {
        CountBounds(bids, issue, bids[0][issue], f);
      }
    }
    p
  }

  /** Every value's count, proposed or not, lies between 0 and the peak count. */
  lemma CountsBelowPeak(bids: seq<Bid>, issue: Issue, f: real)
    requires Covers(bids, issue)
    requires 0 < |bids|
    requires 0.0 < f
    ensures forall v :: 0.0 <= DiscountedCount(bids, issue, v, f) <= PeakCount(bids, issue, f)
    ensures 0.0 < PeakCount(bids, issue, f)
  {
    forall v
      ensures 0.0 <= DiscountedCount(bids, issue, v, f) <= PeakCount(bids, issue, f)
    {
      CountBounds(bids, issue, v, f);
      if !Seen(bids, issue, v) {
        UnseenCountIsZero(bids, issue, v, f);
        CountBounds(bids, issue, bids[0][issue], f);
      }
    }
    var k :| 0 <= k < |bids| && PeakCount(bids, issue, f) == DiscountedCount(bids, issue, bids[k][issue], f);
    CountBounds(bids, issue, bids[k][issue], f);
  }

  /** The counts of the values in `vals`, added up. */
  function SumCounts(bids: seq<Bid>, issue: Issue, vals: seq<Value>, f: real): real
    requires Covers(bids, issue)
  {
    if |vals| == 0 then 0.0
    else DiscountedCount(bids, issue, vals[0], f) + SumCounts(bids, issue, vals[1..], f)
  }

  /** c, counted once for each entry of `vals` equal to x. */
  function Hits(vals: seq<Value>, x: Value, c: real): real
  {
    if |vals| == 0 then 0.0
    else (if vals[0] == x then c else 0.0) + Hits(vals[1..], x, c)
  }

  predicate Distinct(vals: seq<Value>) {
    forall i, j :: 0 <= i < j < |vals| ==> vals[i] != vals[j]
  }

  lemma {:induction false} HitsOnce(vals: seq<Value>, x: Value, c: real)
    requires Distinct(vals)
    ensures Hits(vals, x, c) == if x in vals then c else 0.0
  {
    if |vals| > 0 {
      HitsOnce(vals[1..], x, c);
      if vals[0] == x {
        assert x !in vals[1..];
      } else {
        assert x in vals <==> x in vals[1..] by {
          assert vals == [vals[0]] + vals[1..];
        }
      }
    }
  }

  /** Appending one bid adds factor^n to exactly the counts of the value it proposes. */
  lemma {:induction false} SumCountsStep(bids: seq<Bid>, issue: Issue, vals: seq<Value>, f: real)
    requires Covers(bids, issue)
    requires 0 < |bids|
    ensures SumCounts(bids, issue, vals, f)
         == SumCounts(bids[..|bids| - 1], issue, vals, f) + Hits(vals, bids[|bids| - 1][issue], Pow(f, |bids| - 1))
  {
    if |vals| > 0 {
      SumCountsStep(bids, issue, vals[1..], f);
    }
  }

  /**
   Over a duplicate-free list holding every proposed value, the discounted
   counts add up to 1 + f + ... + f^(n-1): each bid's weight goes to exactly
   one value.
   */
  lemma {:induction false} SumCountsIsGeometric(bids: seq<Bid>, issue: Issue, vals: seq<Value>, f: real)
    requires Covers(bids, issue)
    requires Distinct(vals)
    requires forall k :: 0 <= k < |bids| ==> bids[k][issue] in vals
    ensures SumCounts(bids, issue, vals, f) == GeometricSum(f, |bids|)
    decreases |bids|
  {
    if |bids| > 0 {
      var n := |bids| - 1;
      SumCountsIsGeometric(bids[..n], issue, vals, f);
      SumCountsStep(bids, issue, vals, f);
      HitsOnce(vals, bids[n][issue], Pow(f, n));
      assert bids[n][issue] in vals;
    } else {
      SumCountsOfEmpty(bids, issue, vals, f);
    }
  }

  lemma {:induction false} SumCountsOfEmpty(bids: seq<Bid>, issue: Issue, vals: seq<Value>, f: real)
    requires |bids| == 0
    ensures SumCounts(bids, issue, vals, f) == 0.0
  {
    if |vals| > 0 {
      SumCountsOfEmpty(bids, issue, vals[1..], f);
    }
  }

  /**
   The accumulation loop of `get_utilities`: one pass over the history with a
   running discount, filling a dictionary keyed by the values seen so far.
   */
  method DiscountedOccurrences(bids: seq<Bid>, issue: Issue, f: real) returns (d: map<Value, real>)
    requires Covers(bids, issue)
    ensures forall v :: v in d <==> Seen(bids, issue, v)
    ensures forall v :: v in d ==> d[v] == DiscountedCount(bids, issue, v, f)
  {
    d := map[];
    var discount := 1.0;
    var i := 0;
    while i < |bids|
      invariant 0 <= i <= |bids|
      invariant discount == Pow(f, i)
      invariant Tallies(d, bids[..i], issue, f)
    {
      var value := bids[i][issue];
      TallyStep(d, bids, issue, f, i);
      d := d[value := (if value in d then d[value] else 0.0) + discount];
      discount := discount * f;
      i := i + 1;
    }
    assert bids[..|bids|] == bids;
  }

  /** `d` holds exactly the values proposed in `bids`, each with its discounted count. */
  ghost predicate Tallies(d: map<Value, real>, bids: seq<Bid>, issue: Issue, f: real)
    requires Covers(bids, issue)
  {
    && (forall v :: v in d <==> Seen(bids, issue, v))
    && (forall v :: v in d ==> d[v] == DiscountedCount(bids, issue, v, f))
  }

  /** One pass of the accumulation loop turns the tallies of the first i bids into those of the first i + 1. */
  lemma TallyStep(d: map<Value, real>, bids: seq<Bid>, issue: Issue, f: real, i: nat)
    requires Covers(bids, issue)
    requires i < |bids|
    requires Tallies(d, bids[..i], issue, f)
    ensures var value := bids[i][issue];
      Tallies(d[value := (if value in d then d[value] else 0.0) + Pow(f, i)], bids[..i + 1], issue, f)
  {
    var value := bids[i][issue];
    SeenStep(bids, issue, i);
    CountStep(bids, issue, i, f);
    if value !in d {
      UnseenCountIsZero(bids[..i], issue, value, f);
    }
  }

  /** The values seen in the first i + 1 bids are those of the first i, plus the value of bid i. */
  lemma SeenStep(bids: seq<Bid>, issue: Issue, i: nat)
    requires Covers(bids, issue)
    requires i < |bids|
    ensures forall v :: Seen(bids[..i + 1], issue, v) <==> Seen(bids[..i], issue, v) || v == bids[i][issue]
  {
    forall v
      ensures Seen(bids[..i + 1], issue, v) <==> Seen(bids[..i], issue, v) || v == bids[i][issue]
    {
      if Seen(bids[..i + 1], issue, v) && v != bids[i][issue] {
        var k :| 0 <= k < i + 1 && bids[..i + 1][k][issue] == v;
        assert bids[..i][k][issue] == v;
      }
      if Seen(bids[..i], issue, v) {
        var k :| 0 <= k < i && bids[..i][k][issue] == v;
        assert bids[..i + 1][k][issue] == v;
      }
      if v == bids[i][issue] {
        assert bids[..i + 1][i][issue] == v;
      }
    }
  }

  /** Bid i adds factor^i to the count of its own value and nothing to the others. */
  lemma CountStep(bids: seq<Bid>, issue: Issue, i: nat, f: real)
    requires Covers(bids, issue)
    requires i < |bids|
    ensures forall v :: DiscountedCount(bids[..i + 1], issue, v, f) == DiscountedCount(bids[..i], issue, v, f) + (if bids[i][issue] == v then Pow(f, i) else 0.0)
  {
    assert bids[..i + 1][..i] == bids[..i];
  }
}

=== FILE: negotiation.dfy ===
/** Option and Result, for values that may be absent and operations that may fail. */
module Wrappers {

  datatype Option<+T> = None | Some(value: T)

  datatype Result<+T, +E> = Success(value: T) | Failure(error: E)
}

/**
 The vocabulary of a bilateral multi-issue negotiation, as the geniusweb
 framework presents it to an agent: issues, their values, bids and the
 domain catalogue.
 */
module Negotiation {

  type Issue = string

  type Value = string

  /** A bid assigns one value to each issue it mentions. */
  type Bid = map<Issue, Value>

  /**
   The domain catalogue: the issues, in the order the agent iterates over
   them, and the legal values of each issue.
   */
  datatype Domain = Domain(issues: seq<Issue>, values: map<Issue, set<Value>>)
  {
    /** Every issue is listed once and has a value set. */
    predicate Valid() {
      && (forall i, j :: 0 <= i < j < |issues| ==> issues[i] != issues[j])
      && (forall k :: 0 <= k < |issues| ==> issues[k] in values)
    }

    function IssueSet(): set<Issue> {
      set k | 0 <= k < |issues| :: issues[k]
    }
  }

  /** Every bid of `bids` assigns a value to `issue`. */
  predicate Covers(bids: seq<Bid>, issue: Issue) {
    forall k :: 0 <= k < |bids| ==> issue in bids[k]
  }

  /** Some bid of `bids` assigns `v` to `issue`. */
  predicate Seen(bids: seq<Bid>, issue: Issue, v: Value)
    requires Covers(bids, issue)
  {
    exists k :: 0 <= k < |bids| && bids[k][issue] == v
  }

  /** Appending a non-empty run is appending all but its last element, then the last. */
  lemma AppendLast(xs: seq<Bid>, ys: seq<Bid>)
    requires 0 < |ys|
    ensures xs + ys == (xs + ys[..|ys| - 1]) + [ys[|ys| - 1]]
  {
    assert ys == ys[..|ys| - 1] + [ys[|ys| - 1]];
  }
}

=== FILE: opponent_model.dfy ===
/**
 The frequency-based opponent model of agents/Group46_Negotiation/OpponentModel.py:
 the counterpart's bid history, a per-issue counter, a given issue-weight
 estimate, and per-issue value utilities derived from time-discounted
 occurrence counts. A bid is rated by the linear-additive sum of
 weight times value utility.
 */
module OpponentModel {
  import opened Wrappers
  import opened Negotiation
  import opened RealMath
  import opened Frequencies

  datatype EstimatorError =
    | EmptyHistory   // `max` of an empty collection
    | UnseenValue    // dictionary lookup of a value never proposed

  datatype Estimator = Estimator(
    domain: Domain,
    bids: seq<Bid>,                              // the counterpart's bids, oldest first
    occurrences: map<Issue, nat>,                // one counter per issue
    weights: map<Issue, real>,                   // the issue-weight estimate
    utilities: map<Issue, map<Value, real>>)     // the value-utility estimate
  {
    /** Every issue has a counter and a non-negative weight. */
    predicate Valid() {
      && domain.Valid()
      && occurrences.Keys == domain.IssueSet()
      && (forall k :: 0 <= k < |domain.issues| ==> domain.issues[k] in weights)
      && NonNegative(weights)
    }

    /** Every recorded bid assigns a value to every issue. */
    predicate CompleteHistory() {
      forall k :: 0 <= k < |domain.issues| ==> Covers(bids, domain.issues[k])
    }
  }

  /** All issue weights, added up in the domain's issue order. */
  function WeightSum(issues: seq<Issue>, weights: map<Issue, real>): real
    requires forall k :: 0 <= k < |issues| ==> issues[k] in weights
  {
    if |issues| == 0 then 0.0 else weights[issues[0]] + WeightSum(issues[1..], weights)
  }

  /** No issue weight is negative. */
  predicate NonNegative(weights: map<Issue, real>) {
    forall i :: i in weights ==> 0.0 <= weights[i]
  }

  /** Every stored value utility lies in (0, 1]. */
  predicate UtilitiesInRange(m: Estimator) {
    forall i, v :: i in m.utilities && v in m.utilities[i] ==> 0.0 < m.utilities[i][v] <= 1.0
  }

  /** A fresh model for `domain` with the given issue-weight estimate and no bids. */
  function Init(domain: Domain, weights: map<Issue, real>): (m: Estimator)
    requires domain.Valid()
    requires forall k :: 0 <= k < |domain.issues| ==> domain.issues[k] in weights
    requires NonNegative(weights)
    ensures m.Valid()
    ensures m.domain == domain && m.bids == []
    ensures forall i :: i in m.occurrences ==> m.occurrences[i] == 0
    ensures m.weights == weights
    ensures m.utilities == map[] && UtilitiesInRange(m)
  {
    Estimator(domain, [], map i | i in domain.IssueSet() :: 0, weights, map[])
  }

  /** `update_bids`: count the bid on every issue and append it to the history. */
  function UpdateBids(m: Estimator, bid: Bid): (r: Estimator)
    requires m.Valid()
    ensures r.Valid()
    ensures r.bids == m.bids + [bid]
    ensures r.occurrences.Keys == m.occurrences.Keys
    ensures forall i :: i in m.occurrences ==> r.occurrences[i] == m.occurrences[i] + 1
    ensures r.domain == m.domain && r.weights == m.weights && r.utilities == m.utilities
  {
    m.(bids := m.bids + [bid], occurrences := map i | i in m.occurrences :: m.occurrences[i] + 1)
  }

  /** The model after `update_bids` has been called once per bid of `bs`, in order. */
  function Feed(m: Estimator, bs: seq<Bid>): (r: Estimator)
    requires m.Valid()
    ensures r.Valid()
    ensures r.domain == m.domain
    decreases |bs|
  {
    if |bs| == 0 then m else UpdateBids(Feed(m, bs[..|bs| - 1]), bs[|bs| - 1])
  }

  lemma {:induction false} FeedAppends(m: Estimator, bs: seq<Bid>)
    requires m.Valid()
    ensures Feed(m, bs).bids == m.bids + bs
    ensures Feed(m, bs).occurrences.Keys == m.occurrences.Keys
    ensures forall i :: i in m.occurrences ==> Feed(m, bs).occurrences[i] == m.occurrences[i] + |bs|
    ensures Feed(m, bs).weights == m.weights
    decreases |bs|
  {
    if |bs| > 0 {
      var n := |bs| - 1;
      FeedAppends(m, bs[..n]);
      AppendLast(m.bids, bs);
    }
  }

  /** After n bids from a fresh model, the history is exactly those bids and every issue counter is n. */
  lemma {:induction false} FeedFromInit(domain: Domain, weights: map<Issue, real>, bs: seq<Bid>)
    requires domain.Valid()
    requires forall k :: 0 <= k < |domain.issues| ==> domain.issues[k] in weights
    requires NonNegative(weights)
    ensures Feed(Init(domain, weights), bs).bids == bs
    ensures forall i :: i in domain.IssueSet() ==> Feed(Init(domain, weights), bs).occurrences[i] == |bs|
  {
    var m0 := Init(domain, weights);
    FeedAppends(m0, bs);
    forall i | i in domain.IssueSet()
      ensures Feed(m0, bs).occurrences[i] == |bs|
    {
      assert i in m0.occurrences;
    }
  }

  /** `update_issue_weights` is a stub: it returns 0 and leaves the model as it was. */
  function UpdateIssueWeights(m: Estimator): (r: (int, Estimator))
    ensures r.0 == 0
    ensures r.1 == m
  {
    (0, m)
  }

  /** The base of the value utility: (1 + count) / (1 + peak). */
  function Ratio(count: real, peak: real): real
    requires 0.0 <= peak
  {
    (1.0 + count) / (1.0 + peak)
  }

  lemma RatioInUnitInterval(count: real, peak: real)
    requires 0.0 <= count <= peak
    ensures 0.0 < Ratio(count, peak) <= 1.0
    ensures count == peak ==> Ratio(count, peak) == 1.0
  {
    QuotientInUnitInterval(1.0 + count, 1.0 + peak);
  }

  lemma RatioMonotone(c1: real, c2: real, peak: real)
    requires 0.0 <= peak
    requires c1 <= c2
    ensures Ratio(c1, peak) <= Ratio(c2, peak)
  {
    MultiplyWeak(1.0 + c1, 1.0 + c2, 1.0 / (1.0 + peak));
  }

  /**
   The utility of `v` on `issue`: root((1 + count[v]) / (1 + peak)), with
   root playing `** 0.25`. It lies in (0, 1], and its fourth power is the
   base ratio.
   */
  function ValueUtility(bids: seq<Bid>, issue: Issue, v: Value, f: real, root: real -> real): (u: real)
    requires Covers(bids, issue)
    requires 0 < |bids|
    requires 0.0 < f
    requires IsFourthRoot(root)
    ensures 0.0 < u <= 1.0
    ensures Fourth(u) == Ratio(DiscountedCount(bids, issue, v, f), PeakCount(bids, issue, f))
  {
    CountsBelowPeak(bids, issue, f);
    var ratio := Ratio(DiscountedCount(bids, issue, v, f), PeakCount(bids, issue, f));
    RatioInUnitInterval(DiscountedCount(bids, issue, v, f), PeakCount(bids, issue, f));
    RootOnUnitInterval(root, ratio);
    root(ratio)
  }

  /**
   `get_utilities` with its evident intent: a value never proposed counts 0.
   The only failure is an empty history, which has no peak count.
   */
  function GetUtilities(m: Estimator, issue: Issue, root: real -> real): (r: Result<map<Value, real>, EstimatorError>)
    requires m.Valid()
    requires issue in m.domain.IssueSet()
    requires Covers(m.bids, issue)
    requires IsFourthRoot(root)
    ensures r.Failure? <==> |m.bids| == 0
    ensures r.Failure? ==> r.error == EmptyHistory
    ensures r.Success? ==> r.value.Keys == m.domain.values[issue]
    ensures r.Success? ==> forall v :: v in r.value ==> 0.0 < r.value[v] <= 1.0
    ensures r.Success? ==> forall v :: v in r.value ==>
              var f := DiscountFactor(m.weights[issue]);
              Fourth(r.value[v]) == Ratio(DiscountedCount(m.bids, issue, v, f), PeakCount(m.bids, issue, f))
  {
    if |m.bids| == 0 then Failure(EmptyHistory)
    else
      var f := DiscountFactor(m.weights[issue]);
      var utilities := map v | v in m.domain.values[issue] :: ValueUtility(m.bids, issue, v, f, root);
      Success(utilities)
  }

  /**
   `get_utilities` as written: line 78 reads `discountedOccurences[value]`
   for every domain value, which raises for a value the counterpart never
   proposed.
   */
  function GetUtilitiesAsWritten(m: Estimator, issue: Issue, root: real -> real): (r: Result<map<Value, real>, EstimatorError>)
    requires m.Valid()
    requires issue in m.domain.IssueSet()
    requires Covers(m.bids, issue)
    requires IsFourthRoot(root)
    ensures r.Success? ==> forall v :: v in m.domain.values[issue] ==> Seen(m.bids, issue, v)
  {
    if |m.bids| == 0 then Failure(EmptyHistory)
    else if exists v :: v in m.domain.values[issue] && !Seen(m.bids, issue, v) then Failure(UnseenValue)
    else GetUtilities(m, issue, root)
  }

  /** Where every domain value has been proposed the two versions agree; otherwise the code as written fails. */
  lemma AsWrittenFailsExactlyOnUnseen(m: Estimator, issue: Issue, root: real -> real)
    requires m.Valid()
    requires issue in m.domain.IssueSet()
    requires Covers(m.bids, issue)
    requires IsFourthRoot(root)
    requires 0 < |m.bids|
    ensures GetUtilitiesAsWritten(m, issue, root) == Failure(UnseenValue)
        <==> exists v :: v in m.domain.values[issue] && !Seen(m.bids, issue, v)
    ensures (forall v :: v in m.domain.values[issue] ==> Seen(m.bids, issue, v))
        ==> GetUtilitiesAsWritten(m, issue, root) == GetUtilities(m, issue, root)
  {
  }

  /**
   A one-issue domain with values {"a", "b"} after a single bid proposing
   "a": the code as written raises on "b", the corrected version rates "b"
   at root(1/2) and "a" at 1.
   */
  lemma UnseenValueCounterexample(root: real -> real)
    requires IsFourthRoot(root)
    ensures var m := Estimator(Domain(["i"], map["i" := {"a", "b"}]), [map["i" := "a"]], map["i" := 1], map["i" := 1.0], map[]);
      && m.Valid()
      && GetUtilitiesAsWritten(m, "i", root) == Failure(UnseenValue)
      && GetUtilities(m, "i", root).Success?
      && GetUtilities(m, "i", root).value["b"] == root(0.5)
      && GetUtilities(m, "i", root).value["a"] == 1.0
  {
    var m := Estimator(Domain(["i"], map["i" := {"a", "b"}]), [map["i" := "a"]], map["i" := 1], map["i" := 1.0], map[]);
    assert m.domain.issues[0] == "i";
    assert m.domain.IssueSet() == {"i"};
    var f := DiscountFactor(1.0);
    assert !Seen(m.bids, "i", "b");
    UnseenCountIsZero(m.bids, "i", "b", f);
    assert DiscountedCount(m.bids, "i", "a", f) == 1.0 by {
      assert m.bids[..0] == [];
    }
    assert PeakCount(m.bids, "i", f) == 1.0;
    RootOfOne(root);
  }

  /** A value whose discounted count reaches the peak is rated exactly 1. */
  lemma PeakValueRatedOne(m: Estimator, issue: Issue, root: real -> real)
    requires m.Valid()
    requires issue in m.domain.IssueSet()
    requires Covers(m.bids, issue)
    requires IsFourthRoot(root)
    requires 0 < |m.bids|
    ensures var f := DiscountFactor(m.weights[issue]);
      forall v :: v in m.domain.values[issue] && DiscountedCount(m.bids, issue, v, f) == PeakCount(m.bids, issue, f)
        ==> GetUtilities(m, issue, root).value[v] == 1.0
  {
    var f := DiscountFactor(m.weights[issue]);
    CountsBelowPeak(m.bids, issue, f);
    RootOfOne(root);
    forall v | v in m.domain.values[issue] && DiscountedCount(m.bids, issue, v, f) == PeakCount(m.bids, issue, f)
      ensures GetUtilities(m, issue, root).value[v] == 1.0
    {
      RatioInUnitInterval(DiscountedCount(m.bids, issue, v, f), PeakCount(m.bids, issue, f));
    }
  }

  /** Value utilities are ordered as the discounted counts are. */
  lemma UtilityMonotoneInCount(m: Estimator, issue: Issue, root: real -> real, v1: Value, v2: Value)
    requires m.Valid()
    requires issue in m.domain.IssueSet()
    requires Covers(m.bids, issue)
    requires IsFourthRoot(root)
    requires 0 < |m.bids|
    requires v1 in m.domain.values[issue] && v2 in m.domain.values[issue]
    requires DiscountedCount(m.bids, issue, v1, DiscountFactor(m.weights[issue]))
          <= DiscountedCount(m.bids, issue, v2, DiscountFactor(m.weights[issue]))
    ensures GetUtilities(m, issue, root).value[v1] <= GetUtilities(m, issue, root).value[v2]
  {
    var f := DiscountFactor(m.weights[issue]);
    var p := PeakCount(m.bids, issue, f);
    var c1, c2 := DiscountedCount(m.bids, issue, v1, f), DiscountedCount(m.bids, issue, v2, f);
    CountsBelowPeak(m.bids, issue, f);
    RatioInUnitInterval(c1, p);
    RatioMonotone(c1, c2, p);
    RootMonotone(root, Ratio(c1, p), Ratio(c2, p));
  }

  /** The new utility maps for every issue, keyed by issue. */
  function AllUtilities(m: Estimator, root: real -> real): (u: map<Issue, map<Value, real>>)
    requires m.Valid() && m.CompleteHistory() && IsFourthRoot(root)
    requires 0 < |m.bids|
    ensures u.Keys == m.domain.IssueSet()
    ensures forall i :: i in u ==> u[i] == GetUtilities(m, i, root).value
    ensures forall i :: i in u ==> u[i].Keys == m.domain.values[i]
    ensures forall i, v :: i in u && v in u[i] ==> 0.0 < u[i][v] <= 1.0
  {
    map i | i in m.domain.IssueSet() :: GetUtilities(m, i, root).value
  }

  /**
   `update_value_utilities`: recompute every issue's value utilities from the
   whole history. The loop raises on its first issue when the history is
   empty, so it fails exactly when there are bids to be missing and issues
   to loop over.
   */
  function UpdateValueUtilities(m: Estimator, root: real -> real): (r: Result<Estimator, EstimatorError>)
    requires m.Valid() && m.CompleteHistory() && IsFourthRoot(root)
    ensures r.Success? <==> 0 < |m.bids| || |m.domain.issues| == 0
    ensures r.Success? ==> r.value.Valid()
    ensures r.Success? ==> r.value == m.(utilities := r.value.utilities)
    ensures r.Success? ==> forall i :: i in m.domain.IssueSet() ==>
              i in r.value.utilities && r.value.utilities[i].Keys == m.domain.values[i]
    ensures r.Success? && UtilitiesInRange(m) ==> UtilitiesInRange(r.value)
    ensures r.Success? && 0 < |m.bids| ==> forall i :: i in m.domain.IssueSet() ==>
              r.value.utilities[i] == GetUtilities(m, i, root).value
  {
    if |m.bids| == 0 then
      if |m.domain.issues| == 0 then Success(m) else Failure(EmptyHistory)
    else
      var recomputed := AllUtilities(m, root);
      var r := m.(utilities := m.utilities + recomputed);
      assert UtilitiesInRange(m) ==> UtilitiesInRange(r) by {
        forall i, v | i in recomputed && v in recomputed[i]
          ensures 0.0 < recomputed[i][v] <= 1.0
        {
          assert recomputed[i] == GetUtilities(m, i, root).value;
        }
      }
      Success(r)
  }

  /** Every issue of the domain has a weight and a value utility for the value the bid assigns it. */
  predicate CanEvaluate(m: Estimator, bid: Bid) {
    forall k :: 0 <= k < |m.domain.issues| ==>
      var i := m.domain.issues[k];
      i in m.weights && i in m.utilities && i in bid && bid[i] in m.utilities[i]
  }

  /**
   Σ weight[i] · utility[i][bid[i]] over `issues`. With non-negative weights
   and utilities in (0, 1] it lies between 0 and the sum of the weights, and
   is positive when that sum is.
   */
  function WeightedSum(issues: seq<Issue>, m: Estimator, bid: Bid): (s: real)
    requires forall k :: 0 <= k < |issues| ==>
      issues[k] in m.weights && issues[k] in m.utilities && issues[k] in bid && bid[issues[k]] in m.utilities[issues[k]]
    ensures NonNegative(m.weights) && UtilitiesInRange(m) ==> 0.0 <= s <= WeightSum(issues, m.weights)
    ensures NonNegative(m.weights) && UtilitiesInRange(m) && 0.0 < WeightSum(issues, m.weights) ==> 0.0 < s
  {
    if |issues| == 0 then 0.0
    else
      var i := issues[0];
      var w, u := m.weights[i], m.utilities[i][bid[i]];
      var rest, restWeight := WeightedSum(issues[1..], m, bid), WeightSum(issues[1..], m.weights);
      assert WeightSum(issues, m.weights) == w + restWeight;
      assert NonNegative(m.weights) && UtilitiesInRange(m) ==>
        0.0 <= w * u + rest <= w + restWeight && (0.0 < w + restWeight ==> 0.0 < w * u + rest) by {
        if NonNegative(m.weights) && UtilitiesInRange(m) {
          AddTerm(w, u, rest, restWeight);
        }
      }
      w * u + rest
  }

  /** Adding one issue's term w·u to a partial sum keeps it within [0, partial weight + w], and positive when that weight is. */
  lemma AddTerm(w: real, u: real, rest: real, restWeight: real)
    requires 0.0 <= w
    requires 0.0 < u <= 1.0
    requires 0.0 <= rest <= restWeight
    requires 0.0 < restWeight ==> 0.0 < rest
    ensures 0.0 <= w * u + rest <= w + restWeight
    ensures 0.0 < w + restWeight ==> 0.0 < w * u + rest
  {
    ShrinkOnUnit(w, u);
    if 0.0 < w {
      PositiveProduct(w, u);
    }
  }

  /**
   `evaluate_bid_utility`: the linear-additive estimate of the counterpart's
   utility for `bid`. It reads the model and changes nothing.
   */
  function EvaluateBidUtility(m: Estimator, bid: Bid): (u: real)
    requires CanEvaluate(m, bid)
    ensures NonNegative(m.weights) && UtilitiesInRange(m) ==> 0.0 <= u <= WeightSum(m.domain.issues, m.weights)
    ensures NonNegative(m.weights) && UtilitiesInRange(m) && WeightSum(m.domain.issues, m.weights) == 1.0 ==> 0.0 < u <= 1.0
  {
    WeightedSum(m.domain.issues, m, bid)
  }

  lemma {:induction false} WeightedSumMonotone(issues: seq<Issue>, m: Estimator, b1: Bid, b2: Bid)
    requires forall k :: 0 <= k < |issues| ==>
      issues[k] in m.weights && issues[k] in m.utilities && issues[k] in b1 && b1[issues[k]] in m.utilities[issues[k]]
      && issues[k] in b2 && b2[issues[k]] in m.utilities[issues[k]]
    requires NonNegative(m.weights)
    requires forall k :: 0 <= k < |issues| ==>
      m.utilities[issues[k]][b1[issues[k]]] <= m.utilities[issues[k]][b2[issues[k]]]
    ensures WeightedSum(issues, m, b1) <= WeightedSum(issues, m, b2)
  {
    if |issues| > 0 {
      var i := issues[0];
      WeightedSumMonotone(issues[1..], m, b1, b2);
      MultiplyWeak(m.utilities[i][b1[i]], m.utilities[i][b2[i]], m.weights[i]);
    }
  }

  /** A bid whose value on every issue is rated at least as high as another's is estimated at least as high. */
  lemma EvaluateMonotone(m: Estimator, b1: Bid, b2: Bid)
    requires CanEvaluate(m, b1) && CanEvaluate(m, b2)
    requires NonNegative(m.weights)
    requires forall k :: 0 <= k < |m.domain.issues| ==>
      m.utilities[m.domain.issues[k]][b1[m.domain.issues[k]]] <= m.utilities[m.domain.issues[k]][b2[m.domain.issues[k]]]
    ensures EvaluateBidUtility(m, b1) <= EvaluateBidUtility(m, b2)
  {
    WeightedSumMonotone(m.domain.issues, m, b1, b2);
  }
}

=== FILE: real_math.dfy ===
/**
 Real-number helpers: natural powers, geometric sums, the ceiling of a real,
 and a characterisation of the fourth root (Python's `x ** 0.25`), which
 Dafny's reals cannot compute.
 */
module RealMath {

  function Pow(x: real, n: nat): (r: real)
    ensures 0.0 < x ==> 0.0 < r
  {
    if n == 0 then 1.0 else x * Pow(x, n - 1)
  }

  /** x^0 + x^1 + ... + x^(n-1) */
  function GeometricSum(x: real, n: nat): real
  {
    if n == 0 then 0.0 else GeometricSum(x, n - 1) + Pow(x, n - 1)
  }

  /** Python's `math.ceil`: the least integer not below x. */
  function Ceil(x: real): (r: int)
    ensures r as real - 1.0 < x <= r as real
  {
    -((-x).Floor)
  }

  function Fourth(r: real): real {
    r * r * r * r
  }

  /**
   `root` agrees with `x ** 0.25` on the positive reals: it returns the
   positive real whose fourth power is x.
   */
  ghost predicate IsFourthRoot(root: real -> real) {
    forall x :: 0.0 < x ==> 0.0 < root(x) && Fourth(root(x)) == x
  }

  lemma FourthStrictlyMonotone(a: real, b: real)
    requires 0.0 < a < b
    ensures Fourth(a) < Fourth(b)
  {
    MultiplyStrict(a, b, a);
    MultiplyStrict(a, b, b);
    var a2, b2 := a * a, b * b;
    MultiplyStrict(a2, b2, a);
    MultiplyStrict(a * a2, b * b2, a);
    assert a2 * a < b2 * b by { MultiplyStrict(a, b, b2); }
    assert Fourth(a) == a2 * a * a;
    assert Fourth(b) == b2 * b * b;
    MultiplyStrict(a2 * a, b2 * b, a);
    MultiplyStrict(a, b, b2 * b);
  }

  lemma MultiplyStrict(p: real, q: real, c: real)
    requires p < q && 0.0 < c
    ensures p * c < q * c
  {
  }

  lemma RootMonotone(root: real -> real, x: real, y: real)
    requires IsFourthRoot(root)
    requires 0.0 < x <= y
    ensures root(x) <= root(y)
  {
    if root(y) < root(x) {
      FourthStrictlyMonotone(root(y), root(x));
      assert false;
    }
  }

  lemma RootOfOne(root: real -> real)
    requires IsFourthRoot(root)
    ensures root(1.0) == 1.0
  {
    var r := root(1.0);
    if r < 1.0 {
      FourthStrictlyMonotone(r, 1.0);
      assert false;
    } else if 1.0 < r {
      FourthStrictlyMonotone(1.0, r);
      assert false;
    }
  }

  /**
   The fourth root maps (0, 1] into (0, 1] and never lowers its argument
   there, so it narrows the gap between a ratio and 1.
   */
  lemma RootOnUnitInterval(root: real -> real, x: real)
    requires IsFourthRoot(root)
    requires 0.0 < x <= 1.0
    ensures 0.0 < root(x) <= 1.0
    ensures x <= root(x)
  {
    RootMonotone(root, x, 1.0);
    RootOfOne(root);
    FourthAtMostSelf(root(x));
  }

  /** On (0, 1] the fourth power never exceeds its base. */
  lemma FourthAtMostSelf(r: real)
    requires 0.0 < r <= 1.0
    ensures Fourth(r) <= r
  {
    var r2 := r * r;
    ShrinkOnUnit(r, r);
    var r3 := r2 * r;
    ShrinkOnUnit(r2, r);
    ShrinkOnUnit(r3, r);
    assert Fourth(r) == r3 * r;
  }

  /** Scaling a non-negative number by a factor in (0, 1] keeps it between 0 and itself. */
  lemma ShrinkOnUnit(a: real, r: real)
    requires 0.0 <= a && 0.0 < r <= 1.0
    ensures 0.0 <= a * r <= a
  {
    MultiplyWeak(r, 1.0, a);
    MultiplyWeak(0.0, r, a);
  }

  lemma MultiplyWeak(p: real, q: real, c: real)
    requires p <= q && 0.0 <= c
    ensures p * c <= q * c
  {
  }

  lemma QuotientInUnitInterval(n: real, d: real)
    requires 0.0 <= n <= d && 0.0 < d
    ensures 0.0 <= n / d <= 1.0
  {
    if n / d > 1.0 {
      assert false;
    }
  }

  /** (1 - p) · x + p · y: the convex combination moving from x at p = 0 to y at p = 1. */
  function Blend(p: real, x: real, y: real): (r: real)
    ensures p == 0.0 ==> r == x
    ensures p == 1.0 ==> r == y
    ensures 0.0 <= p <= 1.0 ==> (x <= r <= y || y <= r <= x)
  {
    var r := (1.0 - p) * x + p * y;
    BlendFacts(p, x, y, r);
    r
  }

  lemma BlendFacts(p: real, x: real, y: real, r: real)
    requires r == (1.0 - p) * x + p * y
    ensures p == 0.0 ==> r == x
    ensures p == 1.0 ==> r == y
    ensures 0.0 <= p <= 1.0 ==> (x <= r <= y || y <= r <= x)
  {
    var d := y - x;
    var step := p * d;
    assert r == x + step;
    if p == 0.0 {
      assert step == 0.0;
    } else if p == 1.0 {
      assert step == d;
    }
    if 0.0 <= p <= 1.0 {
      if 0.0 <= d {
        ScaleWithin(p, d);
      } else {
        ScaleWithin(p, -d);
        NegateFactor(p, d);
      }
    }
  }

  lemma NegateFactor(p: real, d: real)
    ensures p * -d == -(p * d)
  {
  }

  lemma ScaleWithin(p: real, d: real)
    requires 0.0 <= p <= 1.0 && 0.0 <= d
    ensures 0.0 <= p * d <= d
  {
    MultiplyWeak(0.0, p, d);
    MultiplyWeak(p, 1.0, d);
  }

  lemma PositiveProduct(a: real, b: real)
    requires 0.0 < a && 0.0 < b
    ensures 0.0 < a * b
  {
    MultiplyStrict(0.0, b, a);
  }
}

=== FILE: stages.dfy ===
/**
 The agent's own-utility stages: every bid of the domain is put in one of
 twenty stages, stage 0 holding the bids worth more than 0.95 to the agent,
 stage 1 those in (0.90, 0.95], and so on down to stage 19.
 */
module Stages {
  import opened Negotiation
  import opened RealMath

  const StageCount: nat := 20

  /** Stage of a bid of own utility u: 20 - ceil(20u), with 20 folded into 19. */
  function StageOf(u: real): (s: nat)
    requires 0.0 <= u <= 1.0
    ensures s < StageCount
    ensures s < 19 ==> (19 - s) as real / 20.0 < u <= (20 - s) as real / 20.0
    ensures s == 19 <==> u <= 0.05
    ensures u == 1.0 ==> s == 0
    ensures u == 0.0 ==> s == 19
  {
    var index := 20 - Ceil(u * 20.0);
    if index == 20 then 19 else index
  }

  /** Higher own utility never lands in a later stage. */
  lemma StageMonotone(u1: real, u2: real)
    requires 0.0 <= u1 <= u2 <= 1.0
    ensures StageOf(u2) <= StageOf(u1)
  {
    var c1, c2 := Ceil(u1 * 20.0), Ceil(u2 * 20.0);
    if c2 < c1 {
      assert false;
    }
  }

  /** Every bid's own utility lies in [0, 1]. */
  predicate InUnitRange(bids: seq<Bid>, util: Bid -> real) {
    forall k :: 0 <= k < |bids| ==> 0.0 <= util(bids[k]) <= 1.0
  }

  /** The bids of `bids` that fall in stage i, in enumeration order. */
  function InStage(bids: seq<Bid>, util: Bid -> real, i: nat): seq<Bid>
    requires InUnitRange(bids, util)
    decreases |bids|
  {
    if |bids| == 0 then []
    else
      var n := |bids| - 1;
      InStage(bids[..n], util, i) + (if StageOf(util(bids[n])) == i then [bids[n]] else [])
  }

  lemma {:induction false} InStageMembers(bids: seq<Bid>, util: Bid -> real, i: nat, b: Bid)
    requires InUnitRange(bids, util)
    ensures b in InStage(bids, util, i) <==> b in bids && StageOf(util(b)) == i
    decreases |bids|
  {
    if |bids| > 0 {
      var n := |bids| - 1;
      InStageMembers(bids[..n], util, i, b);
      assert bids == bids[..n] + [bids[n]];
      if b in bids && StageOf(util(b)) == i && b !in bids[..n] {
        assert b == bids[n];
      }
    }
  }

  /** The stages, concatenated in order. */
  function Concat(stages: seq<seq<Bid>>): seq<Bid>
  {
    if |stages| == 0 then [] else stages[0] + Concat(stages[1..])
  }

  /** The candidate pool of stages 0..s. */
  function Pool(stages: seq<seq<Bid>>, s: nat): seq<Bid>
    requires s < |stages|
  {
    Concat(stages[..s + 1])
  }

  lemma {:induction false} ConcatAppendAt(stages: seq<seq<Bid>>, s: nat, b: Bid)
    requires s < |stages|
    ensures multiset(Concat(stages[s := stages[s] + [b]])) == multiset(Concat(stages)) + multiset{b}
  {
    var updated := stages[s := stages[s] + [b]];
    if s == 0 {
      assert updated[1..] == stages[1..];
    } else {
      assert updated[1..] == stages[1..][s - 1 := stages[1..][s - 1] + [b]];
      ConcatAppendAt(stages[1..], s - 1, b);
    }
  }

  /** The stages after appending each bid of `bids`, in order, to the stage of its own utility. */
  function Buckets(bids: seq<Bid>, util: Bid -> real): (stages: seq<seq<Bid>>)
    requires InUnitRange(bids, util)
    ensures |stages| == StageCount
    decreases |bids|
  {
    if |bids| == 0 then seq(StageCount, _ => [])
    else
      var n := |bids| - 1;
      var before := Buckets(bids[..n], util);
      var s := StageOf(util(bids[n]));
      before[s := before[s] + [bids[n]]]
  }

  /** Stage i of the buckets holds exactly the bids of stage i, in enumeration order. */
  lemma {:induction false} BucketsAreStages(bids: seq<Bid>, util: Bid -> real, i: nat)
    requires InUnitRange(bids, util)
    requires i < StageCount
    ensures Buckets(bids, util)[i] == InStage(bids, util, i)
    decreases |bids|
  {
    if |bids| > 0 {
      BucketsAreStages(bids[..|bids| - 1], util, i);
    }
  }

  /** Bucketing neither loses nor duplicates a bid. */
  lemma {:induction false} BucketsKeepBids(bids: seq<Bid>, util: Bid -> real)
    requires InUnitRange(bids, util)
    ensures multiset(Concat(Buckets(bids, util))) == multiset(bids)
    decreases |bids|
  {
    if |bids| > 0 {
      var n := |bids| - 1;
      BucketsKeepBids(bids[..n], util);
      ConcatAppendAt(Buckets(bids[..n], util), StageOf(util(bids[n])), bids[n]);
      assert bids == bids[..n] + [bids[n]];
    } else {
      EmptyStagesConcat(Buckets(bids, util));
    }
  }

  /**
   The bucketing loop of `find_bid`: twenty empty stages, then every bid of
   the enumeration appended to the stage of its own utility.
   */
  method BucketBids(allBids: seq<Bid>, util: Bid -> real) returns (stages: seq<seq<Bid>>)
    requires InUnitRange(allBids, util)
    ensures |stages| == StageCount
    ensures forall i :: 0 <= i < StageCount ==> stages[i] == InStage(allBids, util, i)
    ensures multiset(Concat(stages)) == multiset(allBids)
    ensures |Concat(stages)| == |allBids|
  {
    stages := seq(StageCount, _ => []);
    var k := 0;
    while k < |allBids|
      invariant 0 <= k <= |allBids|
      invariant stages == Buckets(allBids[..k], util)
    {
      var bid := allBids[k];
      var s := StageOf(util(bid));
      assert allBids[..k + 1][..k] == allBids[..k];
      stages := stages[s := stages[s] + [bid]];
      k := k + 1;
    }
    assert allBids[..k] == allBids;
    forall i | 0 <= i < StageCount
      ensures stages[i] == InStage(allBids, util, i)
    {
      BucketsAreStages(allBids, util, i);
    }
    BucketsKeepBids(allBids, util);
    assert |multiset(Concat(stages))| == |multiset(allBids)|;
  }

  lemma {:induction false} EmptyStagesConcat(stages: seq<seq<Bid>>)
    requires forall i :: 0 <= i < |stages| ==> stages[i] == []
    ensures Concat(stages) == []
  {
    if |stages| > 0 {
      EmptyStagesConcat(stages[1..]);
    }
  }

  /** Every bid of the enumeration lands in exactly one stage, the one of its own utility. */
  lemma BucketsPartition(allBids: seq<Bid>, util: Bid -> real, stages: seq<seq<Bid>>, b: Bid, i: nat)
    requires InUnitRange(allBids, util)
    requires |stages| == StageCount
    requires forall j :: 0 <= j < StageCount ==> stages[j] == InStage(allBids, util, j)
    requires i < StageCount
    ensures b in stages[i] <==> b in allBids && StageOf(util(b)) == i
  {
    InStageMembers(allBids, util, i, b);
  }

  /** The pool of the last stage is every bucketed bid. */
  lemma PoolOfLastStage(stages: seq<seq<Bid>>)
    requires |stages| == StageCount
    ensures Pool(stages, StageCount - 1) == Concat(stages)
  {
    assert stages[..StageCount] == stages;
  }

  /** Widening the pool by one stage keeps the earlier pool as its prefix. */
  lemma {:induction false} PoolGrows(stages: seq<seq<Bid>>, s: nat)
    requires s + 1 < |stages|
    ensures Pool(stages, s + 1) == Pool(stages, s) + stages[s + 1]
  {
    ConcatSnoc(stages[..s + 1], stages[s + 1]);
    assert stages[..s + 2] == stages[..s + 1] + [stages[s + 1]];
  }

  lemma {:induction false} ConcatSnoc(stages: seq<seq<Bid>>, last: seq<Bid>)
    ensures Concat(stages + [last]) == Concat(stages) + last
  {
    if |stages| > 0 {
      assert (stages + [last])[1..] == stages[1..] + [last];
      ConcatSnoc(stages[1..], last);
    } else {
      assert Concat([last]) == last + Concat([]);
    }
  }

  lemma {:induction false} ConcatSplit(stages: seq<seq<Bid>>, j: nat)
    requires j <= |stages|
    ensures Concat(stages) == Concat(stages[..j]) + Concat(stages[j..])
  {
    if 0 < j {
      ConcatSplit(stages[1..], j - 1);
      assert stages[1..][..j - 1] == stages[..j][1..];
      assert stages[1..][j - 1..] == stages[j..];
    } else {
      assert stages[..0] == [];
      assert stages[0..] == stages;
    }
  }

  /** A bid of any pool is one of the bucketed bids. */
  lemma PoolWithinBuckets(stages: seq<seq<Bid>>, s: nat, b: Bid)
    requires s < |stages|
    requires b in Pool(stages, s)
    ensures b in Concat(stages)
  {
    ConcatSplit(stages, s + 1);
  }
}
